=== FILE: README.md ===
# Inventory spreadsheet synchronisation, modelled in Dafny

The system keeps a `produtos` table in step with a product spreadsheet.
An importer script reads the latest spreadsheet row by row. For each row it
builds a product payload and posts it to an HTTP API. The API's
synchronisation endpoint looks the product up by its business key
`(codigo, loja)`. It updates every row under that key, or inserts the
product when the key is absent.

This project models the two pieces of logic at the centre of that pipeline:

- the importer's payload construction and its skip-and-continue loop
  (`processador.py`): code normalisation (`strip().zfill(6)`), barcode and
  counter defaults, which error skips a row, and the line numbers it
  reports;
- the API's product endpoints (`main.py`): the key-based upsert
  `sincronizar_produto`, the plain insert `criar_produto` and the
  five-row listing `get_produtos`.

The table is a `seq<Product>`. The backend's `select`, `insert` and
`update` are pure functions over it. Whether the backend accepts a write is
an input (`Catalog.Fault`). This makes the "empty data means failure"
branches reachable: `Fails(None)` is a write that returns no rows and no
error.

Modules, one per concern:

| file | module | models |
|---|---|---|
| wrappers.dfy | `Wrappers` | `Option` (Python `None`) and `Result` (a raised exception) |
| text.dfy | `Text` | Python's `str.isspace` and `str.strip`, and the narrower whitespace `int()` skips |
| codes.dfy | `Codes` | `str.zfill` and the product-code normalisation |
| integers.dfy | `Integers` | `int(text)` for the counter cells, and its decimal inverse |
| products.dfy | `Products` | the `Produto` record |
| catalog.dfy | `Catalog` | the table, its primitives and the three product endpoints |
| spreadsheet.dfy | `Spreadsheet` | cells, rows and the payload built from one row |
| batch.dfy | `Batch` | the per-row loop and one whole run of the importer |

Building a row's payload reads that row and nothing else. The loop
(`Batch.Process`) is therefore stated over the sequence of payloads, or
errors, that the rows give in sheet order. `Batch.Import` builds that
sequence with `Spreadsheet.Extract` and runs the loop over it.

## Behaviour worth knowing

- `float()` of an empty price cell returns NaN without raising
  (processador.py:72). The row is skipped when anything in the `try`
  raises. That is either building the payload or the POST and its reply
  (processador.py:79-83, see "Left out"). Building the payload raises on a
  missing column (`KeyError`, processador.py:85-86) or on any other
  exception, such as `int()` rejecting a counter or `float()` rejecting a
  price text (processador.py:87-88). The model carries an empty price as
  `NaN`, raises only the errors it models (`Spreadsheet.ExtractError`), and
  treats every POST as answered.
- `strip()` and `int()` do not agree on whitespace. `strip()` removes every
  `str.isspace` character. `int()` skips only the six ASCII whitespace
  characters and the non-ASCII `isspace` ones, so it rejects a counter
  that begins with an information separator U+001C..U+001F
  (processador.py:70-74, `Integers.ParseIntSeparatorExample`).
- Empty text cells get no default. `str()` of an empty cell is `"nan"`, so
  an empty `código` cell becomes the code `"000nan"` (processador.py:66-75,
  `Spreadsheet.ExtractAllEmpty`).
- A write that returns no rows and carries no error is answered with
  `"Erro desconhecido"` (main.py:53, 75, 85).
- The update is keyed on `(codigo, loja)`, not on the row id found by the
  lookup, so it rewrites every row under the key (main.py:70,
  `Catalog.SyncOutcome`).
- The loop keeps no counters. It reports each line as it goes
  (processador.py:81-88). The model keeps that per-line log, and
  `Batch.ProcessAccounts` relates its skipped entries to the rows.

## Model

| member | source | states |
|---|---|---|
| `Text.IntSpaceIsSpace` | processador.py:67-74 | every character `int()` skips around its digits is one `strip()` removes |
| `Text.TrimStart` | processador.py:67 | `lstrip()` returns a suffix of its input that does not start with whitespace |
| `Text.TrimStartDrops` | processador.py:67 | everything `lstrip()` drops is whitespace |
| `Text.TrimEnd` | processador.py:67 | `rstrip()` returns a prefix of its input that does not end with whitespace |
| `Text.TrimEndDrops` | processador.py:67 | everything `rstrip()` drops is whitespace |
| `Text.Trim` | processador.py:67-68 | `strip()` returns a string that neither begins nor ends with whitespace and is no longer than its input |
| `Text.TrimStripped` | processador.py:67 | `strip()` leaves a string alone when it has no surrounding whitespace |
| `Text.TrimIdempotent` | processador.py:67 | stripping twice is stripping once |
| `Text.TrimUnique` | processador.py:67-68 | for any whitespace runs `a` and `b` around a stripped core `m`, `strip(a + m + b) == m`; this is an independent characterisation of `strip()`, and it holds for `int()`'s whitespace too |
| `Codes.ZFill` | processador.py:67 | `zfill(w)` returns a string of length `max(w, len)` |
| `Codes.ZFillPads` | processador.py:67 | `zfill(w)` leaves strings of length at least `w` unchanged, left-pads a sign-free string with zeros so that it ends with the original, and puts the zeros after a leading `+`/`-` |
| `Codes.NormalizeCode` | processador.py:67 | the payload code has length `max(6, len(strip(s)))` |
| `Codes.NormalizeCodePads` | processador.py:67 | the payload code ends with the stripped text behind `'0'` padding when that text has no sign, puts the padding after the sign when it has one, and keeps a stripped code of six or more characters unchanged |
| `Codes.NormalizedShape` | processador.py:67 | every payload code is at least six characters long and has no surrounding whitespace |
| `Codes.ZFillStripped` | processador.py:67 | padding a stripped string yields a stripped string |
| `Codes.NormalizeStripped` | processador.py:67 | a code with no surrounding whitespace is only padded |
| `Codes.NormalizeCodeIdempotent` | processador.py:67 | normalising an already-normalised code changes nothing |
| `Codes.ZFillExamples` | processador.py:67 | `"42".zfill(6) == "000042"`, `"-42".zfill(6) == "-00042"`, `"nan".zfill(6) == "000nan"` |
| `Codes.NormalizeCodeShort` | processador.py:67 | code `"42"` becomes `"000042"` |
| `Codes.NormalizeCodeSurroundedBySpaces` | processador.py:67 | code `" 123456 "` becomes `"123456"` |
| `Codes.NormalizeCodeSigned` | processador.py:67 | code `"-42"` becomes `"-00042"`: the sign stays in front of the zeros |
| `Codes.NormalizeCodeNan` | processador.py:67 | an empty code cell, printed as `"nan"`, becomes `"000nan"` |
| `Integers.ParseInt` | processador.py:70-74 | `int(text)` succeeds exactly when the text left between the whitespace `int()` skips is an optional sign followed by decimal digits; the skipped whitespace is the ASCII whitespace and the non-ASCII `isspace` characters, not U+001C..U+001F; an unsigned literal is non-negative and a `-` literal is non-positive |
| `Integers.ParseIntIgnoresSpace` | processador.py:70-74 | `int()` depends only on the text between the whitespace it skips |
| `Integers.ParseIntShowExact` | processador.py:70-74 | `int(str(n)) == n` for every integer `n` |
| `Integers.ParseIntShow` | processador.py:70-74 | `int()` reads back any integer's decimal text surrounded by any runs of the whitespace it skips |
| `Integers.SignedLiteral` | processador.py:70-74 | `int()` reads a `+` or `-` sign followed by digits as the digits' value, negated for `-` |
| `Integers.ParseIntPlusSign` | processador.py:70-74 | `int()` accepts an explicit `+` sign |
| `Integers.ParseIntLeadingZeros` | processador.py:70-74 | `int()` reads a number written with leading zeros as the number itself |
| `Integers.ParseIntZeroSevenExample` | processador.py:70-74 | `int(" 007 ")` is 7 |
| `Integers.ParseIntSeparatorExample` | processador.py:70-74 | `strip()` removes a leading U+001C from `"\u001c7"`, but `int()` rejects that text |
| `Integers.ShowNatValue` | processador.py:70-74 | the decimal digits written for `n` have value `n` |
| `Catalog.Select` | main.py:62 | the key lookup returns no more rows than the table holds, and is empty exactly when no row has that `(codigo, loja)` |
| `Catalog.SelectMembers` | main.py:62 | the key lookup returns only table rows with that `(codigo, loja)`, and every such row |
| `Catalog.SelectCount` | main.py:62 | the key lookup returns one row for each position of the table whose row has the key |
| `Catalog.Update` | main.py:70 | the update keeps the table's length, replaces every row matching the filter by the product, and leaves every other row as it was |
| `Catalog.SyncOutcome` | main.py:58-85 | when the key is absent and the write is accepted, the product is appended once and the answer is `sucesso`/`produto_inserido` with that row; when the key is present, every row under it becomes the product, the other rows are unchanged, nothing is appended, and the answer is `sucesso`/`produto_atualizado` with one returned row per matched row; when the write fails, the table is unchanged and the answer is `falha` with `atualizar` or `inserir` and the backend's error or `"Erro desconhecido"` |
| `Catalog.Create` | main.py:41-54 | the plain insert always appends the product when accepted, with no key check; a failed insert leaves the table unchanged and answers `falha` with the backend's error or `"Erro desconhecido"` |
| `Catalog.ListProducts` | main.py:32-37 | the listing returns `min(5, n)` rows of an `n`-row table, taken from the table in order |
| `Catalog.SelectAppend` | main.py:80 | after an insert, the key lookup sees the old matches plus the new row when it has the key |
| `Catalog.SelectUpdateSame` | main.py:70-73 | after the keyed update, the key selects as many rows as before, each equal to the product |
| `Catalog.SelectUpdateOther` | main.py:70 | the keyed update does not change what any other key selects |
| `Catalog.UpdateUnchanged` | main.py:70 | updating rows that already equal the product changes nothing |
| `Catalog.SyncKeyCount` | main.py:62-83 | after an accepted sync, the product's key holds one row if it was absent and otherwise as many rows as before; every other key selects the same rows as before |
| `Catalog.SyncKeepsKeysUnique` | main.py:62-83 | sync never creates a duplicate key, whether or not the write is accepted |
| `Catalog.UniqueSelectsAtMostOne` | main.py:62 | on a table with unique keys a key lookup returns at most one row |
| `Catalog.SyncReadBack` | main.py:62-83 | on a table with unique keys, looking the key up after an accepted sync returns exactly the product, whether it was inserted or updated |
| `Catalog.InsertReadBack` | main.py:76-83 | syncing a product whose key is absent appends exactly that product, and the key then selects just it |
| `Catalog.UpdateReadBack` | main.py:65-73 | syncing over a key held by exactly one row leaves that one row, equal to the product |
| `Catalog.SyncCurrent` | main.py:65-73 | syncing a product that the table already holds, and only holds, under its key reports an update and leaves the table unchanged |
| `Catalog.InsertedRowIsOnlyMatch` | main.py:76-83 | after inserting into a table that lacked the key, the inserted row is the only row under it |
| `Catalog.ResyncAfterInsert` | main.py:62-83 | syncing again right after an insert reports `produto_atualizado` and leaves the table as the insert left it |
| `Catalog.SyncTwice` | main.py:62-83 | syncing the same product twice on a table lacking its key inserts and then updates, never inserts twice, and leaves exactly one row under the key |
| `Catalog.CreateDuplicates` | main.py:41-49 | the plain insert adds one more row under a key that already exists, so the table's keys stop being unique |
| `Spreadsheet.Lookup` | processador.py:66-75 | `row[column]` gives the cell when the column exists and a `KeyError` naming the column otherwise |
| `Spreadsheet.Counter` | processador.py:70-74 | a stock counter is 0 for an empty cell, `int(text)` for a present cell, a `ValueError` for text `int()` rejects, and a `KeyError` only when the column is absent |
| `Spreadsheet.Barcode` | processador.py:68 | the barcode is `None` exactly when the cell is empty, otherwise the stripped text |
| `Spreadsheet.ReadableColumns` | processador.py:65-76 | a row is readable exactly when no column, in payload order, is absent or is a counter with non-integer text |
| `Spreadsheet.Extract` | processador.py:65-76 | a payload is built exactly when the row is readable; otherwise the error names one of the ten columns; the payload's code is the normalised code text, its barcode follows the cell, its price is the price cell with no default, its text fields are the cells' `str()`, and each counter is 0 when its cell is empty and `int(text)` otherwise |
| `Spreadsheet.ExtractReportsFirstFault` | processador.py:65-76 | the reported error is the first faulty column in the order the payload reads them, and it is a missing-column error exactly when that column is absent |
| `Spreadsheet.ExtractNormalized` | processador.py:67-68 | every payload has a normalised code of at least six characters and a stripped barcode |
| `Spreadsheet.ExtractAllEmpty` | processador.py:65-76 | a row of empty cells has its payload built: the counters become 0, the barcode `None`, the price stays NaN, and the text fields read `"nan"` |
| `Spreadsheet.BarcodeCellRoundTrip` | processador.py:68 | a stripped barcode written to a cell is read back unchanged |
| `Spreadsheet.ExtractHoldsCells` | processador.py:65-76 | a row holding a normalised product's cells, whatever other columns it has, extracts to exactly that product |
| `Spreadsheet.ExtractRowOf` | processador.py:65-76 | writing a normalised product to a row and extracting it gives the product back |
| `Batch.ProcessRow` | processador.py:63-88 | one loop pass reports the row on its sheet line, skipping it with the error raised while building its payload or recording the synced code and the endpoint's response to the payload; a skipped row leaves the table and the backend's replies untouched, and a built payload goes through one synchronisation |
| `Batch.Process` | processador.py:62-88 | the loop yields exactly one report per row |
| `Batch.ProcessReportsAt` | processador.py:62-88 | the loop's `k`-th report is about row `k`, on sheet line `index + k + 2`, is a skip exactly when that row's payload could not be built; its line, its skip and its code do not depend on what happened to earlier rows |
| `Batch.ProcessResponseAt` | processador.py:63-83 | the report for a row whose payload was built carries its sheet line, its code and the endpoint's response to that payload, given the table left by the payloads built before it and the backend's behaviour on the next write |
| `Batch.ProcessResponses` | processador.py:62-83 | every synced row's report carries that response |
| `Batch.ProcessReports` | processador.py:62-88 | every report in the log is about its own row, in sheet order |
| `Batch.ProcessStore` | processador.py:62-88 | the table after the loop equals syncing just the built payloads, in order, on the original table |
| `Batch.ExtractedSkipsFailure` | processador.py:85-88 | removing a row whose payload failed does not change the sequence of built payloads |
| `Batch.SkippedRowChangesNothing` | processador.py:85-88 | inserting a row whose payload cannot be built anywhere in the sheet leaves the run's final table unchanged |
| `Batch.SyncAllKeepsKeysUnique` | processador.py:62-81 | syncing a sequence of payloads one after another, whatever the backend answers each time, keeps a table with unique keys free of duplicate keys (with main.py:58-85) |
| `Batch.ImportKeepsKeysUnique` | processador.py:24-93 | a run of the importer never gives a key a second row, so it can be run again and again on a table with unique keys |
| `Batch.ProcessAccounts` | processador.py:62-88 | skipped rows plus synced payloads add up to the number of rows |
| `Batch.Import` | processador.py:24-93 | with no spreadsheet, or an unreadable one, the run processes no rows and leaves the table alone; otherwise it reports every row, the `k`-th on sheet line `k + 2` and skipped exactly when `Extract` fails on it, a synced row carrying the endpoint's response given the payloads built before it, and the table ends as after syncing the built payloads |
| `Batch.SingleNewRowInserted` | processador.py:62-81 | a one-row sheet whose key the table lacks reports line 2 as `produto_inserido` and appends that row's payload |

## Left out

- Google service-account authentication, and listing, ordering and
  downloading the drive files (processador.py:24-54). This is network I/O
  through foreign libraries. The run takes a `Batch.Source` instead: no
  spreadsheet, unreadable, or its rows.
- `pd.read_excel`, `iterrows` and `notna`. A row is a map from column
  header to `Cell`, and a cell is `Missing` or `Present(text)`.
- How `str()` renders pandas numeric cells (for example `"42.0"`), and
  `int()` truncating float cells. These depend on pandas and on Python's
  float formatting. A present cell is taken to hold its text.
- Integers.ParseInt: accepts only an optional sign and ASCII digits between
  whitespace. Python's `int()` also accepts `_` between digits and
  non-ASCII decimal digits; such cells are rejected here. The integer's
  size is unbounded: the limit of 4300 digits that Python 3.11 and later
  put on `int()` of a string (`sys.set_int_max_str_digits`) is not
  modelled, so a longer counter is read here where Python raises
  `ValueError` and skips the row.
- Spreadsheet.Extract: the price is opaque. `float()` of a present price
  text is not checked. A text that `float()` rejects would raise
  `ValueError` and skip the row; here it is carried as `Amount(text)`.
- The HTTP POST to the synchronisation endpoint, its status-code check and
  all printing (processador.py:78-83). The loop calls `Catalog.Sync`
  directly. The JSON encoding of the payload is not modelled. A client
  that refuses to encode NaN (as `requests` does) makes `requests.post`
  raise for a row with an empty price, and the generic handler
  (processador.py:87-88) then skips that row. The model synchronises such
  a row with a `NaN` price instead.
- Supabase client creation from environment variables (main.py:20-23),
  FastAPI routing and the root endpoint, and Pydantic request validation.
  Payloads reach the endpoints already typed.
- Store-assigned row ids. Rows carry no id. The key lookup selects only
  the `id` column (main.py:62), and the id is read only by a log line
  (main.py:67). `Catalog.Select` returns the matching rows themselves;
  `sincronizar_produto` reads only whether there are any (main.py:65), and
  so does the model's `Catalog.Sync`.
- A failing key lookup (`select`). Only writes can fail, through
  `Catalog.Fault`.
- Catalog.ListProducts: returns the first five rows in table order. The
  backend's query has no `order by`, so the real order is unspecified.
- The shape difference between answers. `criar_produto` returns its rows
  under `dados_inseridos` and has no `operacao`. Both endpoints are
  modelled with one `Catalog.Response`, whose `operacao` is `None` for the
  plain insert.
- Concurrent requests for the same key. Only the sequential behaviour is
  modelled.

=== FILE: batch.dfy ===
/** The importer's run: every row of the latest spreadsheet, in order, is
    turned into a payload and synchronised; a row that cannot be turned
    into a payload is reported and skipped, and the run goes on. The HTTP
    call to the synchronisation endpoint is a direct call of `Sync`.

    Building a row's payload reads only that row, never the table, so the
    loop below is stated over the payloads, or errors, the rows give in
    sheet order (`Payloads`); `Import` connects it to the rows. */
module Batch {
  import opened Wrappers
  import opened Products
  import opened Catalog
  import opened Spreadsheet

  /** Sheet line of the first data row: pandas numbers rows from 0 and the
      header takes line 1. */
  const FirstDataLine: nat := 2

  /** What building one row's payload gives: the payload, or the error that
      skips the row. */
  type Payload = Result<Product, ExtractError>

  /** The payload of every row, in sheet order. */
  function Payloads(rows: seq<Row>): (xs: seq<Payload>)
    ensures |xs| == |rows|
    ensures forall k :: 0 <= k < |rows| ==> xs[k] == Extract(rows[k])
  {
    seq(|rows|, k requires 0 <= k < |rows| => Extract(rows[k]))
  }

  /** What the run reports for one row. */
  datatype LineReport =
    | Synced(line: nat, codigo: string, response: Response)
    | Skipped(line: nat, error: ExtractError)

  datatype Progress = Progress(log: seq<LineReport>, store: Store)

  /** The backend's behaviour on successive writes; once the list runs out
      every further write is accepted. */
  function NextFault(faults: seq<Fault>): Fault {
    if |faults| == 0 then NoFault else faults[0]
  }

  function LaterFaults(faults: seq<Fault>): seq<Fault> {
    if |faults| == 0 then [] else faults[1..]
  }

  /** The backend's behaviour once `n` writes have been made. */
  function FaultsAfter(faults: seq<Fault>, n: nat): seq<Fault> {
    if n == 0 then faults else FaultsAfter(LaterFaults(faults), n - 1)
  }

  /** `report` is what the loop says on sheet line `line` about a row whose
      payload came out as `x`: the error when the row is skipped, otherwise
      the code of the payload it synchronised. */
  predicate Reports(x: Payload, line: nat, report: LineReport) {
    && report.line == line
    && match x
       case Failure(e) => report == Skipped(line, e)
       case Success(p) => report.Synced? && report.codigo == p.codigo
  }

  datatype Step = Step(report: LineReport, store: Store, faults: seq<Fault>)

  /** One pass of the loop body, for row `index` of the sheet: a row whose
      payload could not be built leaves the table and the backend's replies
      alone. */
  function ProcessRow(x: Payload, index: nat, store: Store, faults: seq<Fault>): (s: Step)
    ensures Reports(x, index + FirstDataLine, s.report)
    ensures x.Failure? ==> s.store == store && s.faults == faults
    ensures x.Success? ==>
              var o := Sync(store, x.value, NextFault(faults));
              && s.report == Synced(index + FirstDataLine, x.value.codigo, o.response)
              && s.store == o.store && s.faults == LaterFaults(faults)
  {
    match x
    case Failure(e) => Step(Skipped(index + FirstDataLine, e), store, faults)
    case Success(p) =>
      var o := Sync(store, p, NextFault(faults));
      Step(Synced(index + FirstDataLine, p.codigo, o.response), o.store, LaterFaults(faults))
  }

  /** The loop over the rows' payloads, the first of which is row `index` of
      the sheet: one report per row, whether or not earlier rows were
      skipped. */
  function Process(xs: seq<Payload>, index: nat, store: Store, faults: seq<Fault>): (b: Progress)
    ensures |b.log| == |xs|
    decreases |xs|
  {
    if |xs| == 0 then Progress([], store)
    else
      var s := ProcessRow(xs[0], index, store, faults);
      var rest := Process(xs[1..], index + 1, s.store, s.faults);
      Progress([s.report] + rest.log, rest.store)
  }

  /** The loop's `k`-th report is about row `k`, on sheet line
      `index + k + 2`, whatever the loop did with the rows before it. */
  lemma {:induction false} ProcessReportsAt(
    xs: seq<Payload>, index: nat, store: Store, faults: seq<Fault>, k: nat)
    requires k < |xs|
    ensures Reports(xs[k], index + k + FirstDataLine, Process(xs, index, store, faults).log[k])
    decreases k
  {
    var s := ProcessRow(xs[0], index, store, faults);
    var rest := Process(xs[1..], index + 1, s.store, s.faults);
    assert Process(xs, index, store, faults).log == [s.report] + rest.log;
    if k > 0 {
      ProcessReportsAt(xs[1..], index + 1, s.store, s.faults, k - 1);
      assert xs[1..][k - 1] == xs[k];
    }
  }

  /** The log reports every row in sheet order, each on its own line. */
  lemma {:induction false} ProcessReports(xs: seq<Payload>, index: nat, store: Store, faults: seq<Fault>)
    ensures var b := Process(xs, index, store, faults);
      && |b.log| == |xs|
      && forall k :: 0 <= k < |xs| ==> Reports(xs[k], index + k + FirstDataLine, b.log[k])
  {
    forall k | 0 <= k < |xs|
      ensures Reports(xs[k], index + k + FirstDataLine, Process(xs, index, store, faults).log[k])
    {
      ProcessReportsAt(xs, index, store, faults, k);
    }
  }

  /** The payloads that were built, in sheet order. */
  function Extracted(xs: seq<Payload>): (ps: seq<Product>)
    ensures |ps| <= |xs|
  {
    if |xs| == 0 then []
    else
      match xs[0]
      case Failure(_) => Extracted(xs[1..])
      case Success(p) => [p] + Extracted(xs[1..])
  }

  /** Reference for the loop's effect on the table: synchronise the given
      products one after another. */
  function SyncAll(store: Store, ps: seq<Product>, faults: seq<Fault>): Store
    decreases |ps|
  {
    if |ps| == 0 then store
    else SyncAll(Sync(store, ps[0], NextFault(faults)).store, ps[1..], LaterFaults(faults))
  }

  /** `report` is what the loop says on sheet line `line` about payload `k`
      of `xs`, which was built: it names the payload's code and carries the
      endpoint's answer to that payload, given the table left by the
      payloads built before it and the backend's behaviour on the write
      that follows theirs. */
  predicate SyncedAs(report: LineReport, line: nat, xs: seq<Payload>, store: Store, faults: seq<Fault>, k: nat)
    requires k < |xs| && xs[k].Success?
  {
    var before := Extracted(xs[..k]);
    report == Synced(line, xs[k].value.codigo,
                     Sync(SyncAll(store, before, faults), xs[k].value,
                          NextFault(FaultsAfter(faults, |before|))).response)
  }

  /** The loop reports a synchronised row with the endpoint's answer to its
      payload, given the payloads built before it. */
  lemma {:induction false} ProcessResponseAt(
    xs: seq<Payload>, index: nat, store: Store, faults: seq<Fault>, k: nat)
    requires k < |xs| && xs[k].Success?
    ensures SyncedAs(Process(xs, index, store, faults).log[k], index + k + FirstDataLine, xs, store, faults, k)
    decreases k
  {
    if k == 0 {
      ProcessResponseFirst(xs, index, store, faults);
      assert xs[..0] == [];
      assert SyncAll(store, Extracted(xs[..0]), faults) == store;
      assert FaultsAfter(faults, |Extracted(xs[..0])|) == faults;
    } else {
      var s := ProcessRow(xs[0], index, store, faults);
      assert xs[1..][k - 1] == xs[k];
      ProcessResponseAt(xs[1..], index + 1, s.store, s.faults, k - 1);
      ProcessResponseStep(xs, index, store, faults, k);
    }
  }

  /** The inductive step of `ProcessResponseAt`: what the loop over the
      remaining rows reports for payload `k` is what the whole loop
      reports. */
  lemma ProcessResponseStep(xs: seq<Payload>, index: nat, store: Store, faults: seq<Fault>, k: nat)
    requires 0 < k < |xs| && xs[k].Success?
    requires var s := ProcessRow(xs[0], index, store, faults);
             SyncedAs(Process(xs[1..], index + 1, s.store, s.faults).log[k - 1],
                      index + 1 + (k - 1) + FirstDataLine, xs[1..], s.store, s.faults, k - 1)
    ensures SyncedAs(Process(xs, index, store, faults).log[k], index + k + FirstDataLine, xs, store, faults, k)
  {
    assert xs[1..][k - 1] == xs[k];
    ProcessLogShift(xs, index, store, faults, k);
    StateBefore(xs, index, store, faults, k);
  }

  /** The first report of the loop is about the first row. */
  lemma ProcessResponseFirst(xs: seq<Payload>, index: nat, store: Store, faults: seq<Fault>)
    requires |xs| > 0 && xs[0].Success?
    ensures Process(xs, index, store, faults).log[0] ==
              Synced(index + FirstDataLine, xs[0].value.codigo,
                     Sync(store, xs[0].value, NextFault(faults)).response)
  {
  }

  /** Past the first row, the loop's reports are those of the loop over the
      remaining rows, started from the state the first row left. */
  lemma ProcessLogShift(xs: seq<Payload>, index: nat, store: Store, faults: seq<Fault>, k: nat)
    requires 0 < k < |xs|
    ensures var s := ProcessRow(xs[0], index, store, faults);
            Process(xs, index, store, faults).log[k]
            == Process(xs[1..], index + 1, s.store, s.faults).log[k - 1]
  {
  }

  /** The table and the backend's behaviour before payload `k` are the same
      whether counted from the start or from after the first row. */
  lemma StateBefore(xs: seq<Payload>, index: nat, store: Store, faults: seq<Fault>, k: nat)
    requires 0 < k <= |xs|
    ensures var s := ProcessRow(xs[0], index, store, faults);
            var later := Extracted(xs[1..][..k - 1]);
            && SyncAll(store, Extracted(xs[..k]), faults) == SyncAll(s.store, later, s.faults)
            && FaultsAfter(faults, |Extracted(xs[..k])|) == FaultsAfter(s.faults, |later|)
  {
    ExtractedPrefix(xs, k);
    if xs[0].Success? {
      SyncAllFirst(store, xs[0].value, Extracted(xs[1..][..k - 1]), faults);
    }
  }

  /** Splitting the first payload off the payloads before row `k`. */
  lemma ExtractedPrefix(xs: seq<Payload>, k: nat)
    requires 0 < k <= |xs|
    ensures xs[0].Failure? ==> Extracted(xs[..k]) == Extracted(xs[1..][..k - 1])
    ensures xs[0].Success? ==> Extracted(xs[..k]) == [xs[0].value] + Extracted(xs[1..][..k - 1])
  {
    assert xs[..k][0] == xs[0];
    assert xs[..k][1..] == xs[1..][..k - 1];
  }

  /** Synchronising a first product, then the rest with the replies left. */
  lemma SyncAllFirst(store: Store, p: Product, ps: seq<Product>, faults: seq<Fault>)
    ensures SyncAll(store, [p] + ps, faults)
         == SyncAll(Sync(store, p, NextFault(faults)).store, ps, LaterFaults(faults))
    ensures FaultsAfter(faults, |[p] + ps|) == FaultsAfter(LaterFaults(faults), |ps|)
  {
    assert ([p] + ps)[0] == p;
    assert ([p] + ps)[1..] == ps;
  }

  /** Every synchronised row's report, as in `ProcessResponseAt`. */
  lemma {:induction false} ProcessResponses(xs: seq<Payload>, index: nat, store: Store, faults: seq<Fault>)
    ensures forall k :: 0 <= k < |xs| && xs[k].Success? ==>
              SyncedAs(Process(xs, index, store, faults).log[k], index + k + FirstDataLine, xs, store, faults, k)
  {
    forall k | 0 <= k < |xs| && xs[k].Success?
      ensures SyncedAs(Process(xs, index, store, faults).log[k], index + k + FirstDataLine, xs, store, faults, k)
    {
      ProcessResponseAt(xs, index, store, faults, k);
    }
  }

  /** Synchronising any sequence of products, whatever the backend does
      with each write, keeps a table free of duplicate keys. */
  lemma {:induction false} SyncAllKeepsKeysUnique(store: Store, ps: seq<Product>, faults: seq<Fault>)
    requires KeysUnique(store)
    ensures KeysUnique(SyncAll(store, ps, faults))
    decreases |ps|
  {
    if |ps| > 0 {
      SyncKeepsKeysUnique(store, ps[0], NextFault(faults));
      SyncAllKeepsKeysUnique(Sync(store, ps[0], NextFault(faults)).store, ps[1..], LaterFaults(faults));
    }
  }

  /** The table after the loop is the table after synchronising just the
      payloads that were built: a skipped row neither writes nor uses up a
      backend reply. */
  lemma {:induction false} ProcessStore(xs: seq<Payload>, index: nat, store: Store, faults: seq<Fault>)
    ensures Process(xs, index, store, faults).store == SyncAll(store, Extracted(xs), faults)
    decreases |xs|
  {
    if |xs| > 0 {
      var s := ProcessRow(xs[0], index, store, faults);
      ProcessStore(xs[1..], index + 1, s.store, s.faults);
      if xs[0].Success? {
        assert Extracted(xs)[1..] == Extracted(xs[1..]);
      }
    }
  }

  lemma {:induction false} ExtractedAppend(a: seq<Payload>, b: seq<Payload>)
    ensures Extracted(a + b) == Extracted(a) + Extracted(b)
    decreases |a|
  {
    if |a| == 0 {
      assert a + b == b;
    } else {
      assert (a + b)[0] == a[0];
      assert (a + b)[1..] == a[1..] + b;
      ExtractedAppend(a[1..], b);
    }
  }

  lemma {:induction false} ExtractedSkipsFailure(before: seq<Payload>, bad: Payload, after: seq<Payload>)
    requires bad.Failure?
    ensures Extracted(before + [bad] + after) == Extracted(before + after)
  {
    ExtractedAppend(before + [bad], after);
    ExtractedAppend(before, [bad]);
    ExtractedAppend(before, after);
    assert [bad][1..] == [];
    assert Extracted([bad]) == [];
  }

  lemma {:induction false} PayloadsAppend(a: seq<Row>, b: seq<Row>)
    ensures Payloads(a + b) == Payloads(a) + Payloads(b)
  {
    var l, r := Payloads(a + b), Payloads(a) + Payloads(b);
    assert |l| == |r|;
    forall k | 0 <= k < |l|
      ensures l[k] == r[k]
    {
      if k < |a| {
        assert (a + b)[k] == a[k];
      } else {
        assert (a + b)[k] == b[k - |a|];
      }
    }
  }

  /** A row whose payload cannot be built, wherever it sits, changes nothing
      in the table: the run over the sheet with it ends where the run
      without it does. */
  lemma {:induction false} SkippedRowChangesNothing(
    before: seq<Row>, bad: Row, after: seq<Row>, index: nat, store: Store, faults: seq<Fault>)
    requires Extract(bad).Failure?
    ensures Process(Payloads(before + [bad] + after), index, store, faults).store
         == Process(Payloads(before + after), index, store, faults).store
  {
    PayloadsAppend(before + [bad], after);
    PayloadsAppend(before, [bad]);
    PayloadsAppend(before, after);
    assert Payloads([bad]) == [Extract(bad)];
    ProcessStore(Payloads(before + [bad] + after), index, store, faults);
    ProcessStore(Payloads(before + after), index, store, faults);
    ExtractedSkipsFailure(Payloads(before), Extract(bad), Payloads(after));
  }

  function SkippedCount(log: seq<LineReport>): nat {
    if |log| == 0 then 0 else (if log[0].Skipped? then 1 else 0) + SkippedCount(log[1..])
  }

  /** Every row is accounted for exactly once: it is either skipped or its
      payload is synchronised. */
  lemma {:induction false} ProcessAccounts(xs: seq<Payload>, index: nat, store: Store, faults: seq<Fault>)
    ensures SkippedCount(Process(xs, index, store, faults).log) + |Extracted(xs)| == |xs|
    decreases |xs|
  {
    if |xs| > 0 {
      var b := Process(xs, index, store, faults);
      var s := ProcessRow(xs[0], index, store, faults);
      var rest := Process(xs[1..], index + 1, s.store, s.faults);
      assert b.log == [s.report] + rest.log;
      assert b.log[1..] == rest.log;
      ProcessAccounts(xs[1..], index + 1, s.store, s.faults);
    }
  }

  /** Where the rows come from: the drive folder may hold no spreadsheet,
      fetching or reading it may fail, or it yields its rows. */
  datatype Source = NoSpreadsheet | Unreadable(reason: string) | Sheet(rows: seq<Row>)

  datatype RunStatus = NotFound | GeneralError(reason: string) | Finished

  datatype Run = Run(status: RunStatus, log: seq<LineReport>, store: Store)

  /** One run of the importer. Without rows nothing is synchronised; with
      them every row is reported, on its own sheet line, and only the rows
      whose payload was built reach the table. */
  function Import(source: Source, store: Store, faults: seq<Fault>): (r: Run)
    ensures !source.Sheet? ==> r.log == [] && r.store == store && r.status != Finished
    ensures source.NoSpreadsheet? ==> r.status == NotFound
    ensures source.Sheet? ==>
              && r.status == Finished
              && |r.log| == |source.rows|
              && (forall k :: 0 <= k < |source.rows| ==>
                    Reports(Extract(source.rows[k]), k + FirstDataLine, r.log[k]))
              && r.store == SyncAll(store, Extracted(Payloads(source.rows)), faults)
              && (forall k :: 0 <= k < |source.rows| && Extract(source.rows[k]).Success? ==>
                    SyncedAs(r.log[k], k + FirstDataLine, Payloads(source.rows), store, faults, k))
  {
    match source
    case NoSpreadsheet => Run(NotFound, [], store)
    case Unreadable(reason) => Run(GeneralError(reason), [], store)
    case Sheet(rows) =>
      var xs := Payloads(rows);
      var b := Process(xs, 0, store, faults);
      ProcessStore(xs, 0, store, faults);
      ProcessReports(xs, 0, store, faults);
      ProcessResponses(xs, 0, store, faults);
      Run(Finished, b.log, b.store)
  }

  /** A run of the importer never gives a key a second row, so the
      importer can be run again and again on a table without duplicate
      keys. */
  lemma ImportKeepsKeysUnique(source: Source, store: Store, faults: seq<Fault>)
    requires KeysUnique(store)
    ensures KeysUnique(Import(source, store, faults).store)
  {
    if source.Sheet? {
      SyncAllKeepsKeysUnique(store, Extracted(Payloads(source.rows)), faults);
    }
  }

  /** End to end: a sheet of one good row whose key the table lacks inserts
      that row's payload and reports it as inserted on line 2. */
  lemma {:induction false} SingleNewRowInserted(row: Row, store: Store)
    requires Extract(row).Success?
    requires |Select(store, Extract(row).value.codigo, Extract(row).value.loja)| == 0
    ensures var p := Extract(row).value;
            Import(Sheet([row]), store, []) ==
              Run(Finished, [Synced(FirstDataLine, p.codigo, Sucesso(Some(Inserted), [p]))], store + [p])
  {
    var p := Extract(row).value;
    var xs := Payloads([row]);
    assert xs == [Success(p)];
    var s := ProcessRow(Success(p), 0, store, []);
    assert s == Step(Synced(FirstDataLine, p.codigo, Sucesso(Some(Inserted), [p])), store + [p], []);
    assert xs[1..] == [];
    assert Process(xs, 0, store, []) == Progress([s.report], store + [p]);
  }
}

=== FILE: catalog.dfy ===
/** The product endpoints of the HTTP API over the `produtos` table: the
    table is a sequence of products, and the backend's select, insert and
    update are pure functions over it. Whether the backend accepts a write
    is an input (`Fault`), so that its failure replies can be reached. */
module Catalog {
  import opened Wrappers
  import opened Products

  type Store = seq<Product>

  /** Number of rows `GET /produtos` returns. */
  const PageSize: nat := 5

  const Inserted := "produto_inserido"
  const Updated := "produto_atualizado"
  const InsertAttempt := "inserir"
  const UpdateAttempt := "atualizar"
  const UnknownError := "Erro desconhecido"

  /** The filter `.eq('codigo', codigo).eq('loja', loja)`. */
  predicate Matches(p: Product, codigo: string, loja: string) {
    p.codigo == codigo && p.loja == loja
  }

  /** No two rows of the table share a `(codigo, loja)` key. */
  predicate KeysUnique(store: Store) {
    forall i, j :: 0 <= i < j < |store| ==> !Matches(store[j], store[i].codigo, store[i].loja)
  }

  /** `select` with the key filter: the matching rows, in table order. */
  function Select(store: Store, codigo: string, loja: string): (r: seq<Product>)
    ensures |r| <= |store|
    ensures |r| == 0 <==> forall i :: 0 <= i < |store| ==> !Matches(store[i], codigo, loja)
  {
    if |store| == 0 then []
    else
      var rest := Select(store[..|store| - 1], codigo, loja);
      var last := store[|store| - 1];
      if Matches(last, codigo, loja) then rest + [last] else rest
  }

  /** The key filter keeps only matching rows of the table, and every one
      of them. */
  lemma {:induction false} SelectMembers(store: Store, codigo: string, loja: string)
    ensures forall q :: q in Select(store, codigo, loja) ==> q in store && Matches(q, codigo, loja)
    ensures forall i :: 0 <= i < |store| && Matches(store[i], codigo, loja) ==> store[i] in Select(store, codigo, loja)
    decreases |store|
  {
    if |store| > 0 {
      var init := store[..|store| - 1];
      SelectMembers(init, codigo, loja);
      forall i | 0 <= i < |init|
        ensures init[i] == store[i]
      {
      }
    }
  }

  /** Positions of the rows the key filter matches. */
  function MatchingIndices(store: Store, codigo: string, loja: string): set<int> {
    set i | 0 <= i < |store| && Matches(store[i], codigo, loja)
  }

  /** The lookup returns one row for each row of the table under the key,
      so its length is the number of such rows. */
  lemma {:induction false} SelectCount(store: Store, codigo: string, loja: string)
    ensures |Select(store, codigo, loja)| == |MatchingIndices(store, codigo, loja)|
    decreases |store|
  {
    if |store| > 0 {
      SelectCount(store[..|store| - 1], codigo, loja);
      SelectLastLength(store, codigo, loja);
      MatchingIndicesLast(store, codigo, loja);
    }
  }

  lemma SelectLastLength(store: Store, codigo: string, loja: string)
    requires |store| > 0
    ensures var n := |store| - 1;
            |Select(store, codigo, loja)|
            == |Select(store[..n], codigo, loja)| + if Matches(store[n], codigo, loja) then 1 else 0
  {
  }

  lemma MatchingIndicesLast(store: Store, codigo: string, loja: string)
    requires |store| > 0
    ensures var n := |store| - 1;
            |MatchingIndices(store, codigo, loja)|
            == |MatchingIndices(store[..n], codigo, loja)| + if Matches(store[n], codigo, loja) then 1 else 0
  {
    var n := |store| - 1;
    var init := store[..n];
    var a := MatchingIndices(init, codigo, loja);
    forall i | 0 <= i < n
      ensures i in MatchingIndices(store, codigo, loja) <==> i in a
    {
      assert store[i] == init[i];
    }
    if Matches(store[n], codigo, loja) {
      assert MatchingIndices(store, codigo, loja) == a + {n};
      assert n !in a;
    } else {
      assert MatchingIndices(store, codigo, loja) == a;
    }
  }

  /** `insert`: the backend appends the new row. */
  function Insert(store: Store, p: Product): Store {
    store + [p]
  }

  /** `update(p).eq('codigo', codigo).eq('loja', loja)`: every row the filter
      matches takes all of `p`'s fields; the other rows are untouched. */
  function Update(store: Store, p: Product, codigo: string, loja: string): (r: Store)
    ensures |r| == |store|
    ensures forall i :: 0 <= i < |store| ==>
              r[i] == (if Matches(store[i], codigo, loja) then p else store[i])
  {
    if |store| == 0 then []
    else
      var last := store[|store| - 1];
      Update(store[..|store| - 1], p, codigo, loja) + [if Matches(last, codigo, loja) then p else last]
  }

  /** Whether the backend carries out a write. `Fails(None)` is a write that
      comes back with no rows and no error attached. */
  datatype Fault = NoFault | Fails(error: Option<string>)

  /** The backend's reply to a write: the rows written, and an error. */
  datatype Reply = Reply(data: seq<Product>, error: Option<string>)

  datatype Write = Write(reply: Reply, store: Store)

  /** A write that, if the backend accepts it, turns the table into `after`
      and returns `written`; a failed write changes nothing and returns no
      rows. */
  function Execute(store: Store, after: Store, written: seq<Product>, fault: Fault): Write {
    match fault
    case NoFault => Write(Reply(written, None), after)
    case Fails(e) => Write(Reply([], e), store)
  }

  /** The JSON body of an endpoint's answer. `operacao` is absent from the
      plain insert endpoint's answers. */
  datatype Response =
    | Sucesso(operacao: Option<string>, dados: seq<Product>)
    | Falha(operacao: Option<string>, erro: string)
  {
    function Status(): string {
      if Sucesso? then "sucesso" else "falha"
    }
  }

  /** Success is judged on the rows returned alone: an empty reply is a
      failure, reported with the backend's error or a fixed message. */
  function Respond(reply: Reply, done: Option<string>, attempted: Option<string>): Response {
    if |reply.data| > 0 then Sucesso(done, reply.data)
    else Falha(attempted, reply.error.GetOr(UnknownError))
  }

  datatype Outcome = Outcome(response: Response, store: Store)

  /** `POST /produtos/sincronizar`: update every row with `p`'s key when one
      exists, insert `p` otherwise. `SyncOutcome` states what it answers
      and how it leaves the table. */
  function Sync(store: Store, p: Product, fault: Fault): Outcome {
    var existing := Select(store, p.codigo, p.loja);
    if |existing| > 0 then
      var after := Update(store, p, p.codigo, p.loja);
      var w := Execute(store, after, Select(after, p.codigo, p.loja), fault);
      Outcome(Respond(w.reply, Some(Updated), Some(UpdateAttempt)), w.store)
    else
      var w := Execute(store, Insert(store, p), [p], fault);
      Outcome(Respond(w.reply, Some(Inserted), Some(InsertAttempt)), w.store)
  }

  /** The three outcomes of a synchronisation, by whether the key is present
      and whether the backend accepts the write: an absent key is inserted
      and reported as inserted; a present key has all its rows replaced by
      `p` and the answer carries one copy of `p` per row; a refused write
      changes nothing and reports the attempted operation with the
      backend's error or the fixed message. */
  lemma SyncOutcome(store: Store, p: Product, fault: Fault)
    ensures var o := Sync(store, p, fault);
      var n := |Select(store, p.codigo, p.loja)|;
      && (fault.NoFault? && n == 0 ==>
            o == Outcome(Sucesso(Some(Inserted), [p]), store + [p]))
      && (fault.NoFault? && n > 0 ==>
            && o.response.Sucesso?
            && o.response.operacao == Some(Updated)
            && |o.response.dados| == n
            && (forall q :: q in o.response.dados ==> q == p)
            && |o.store| == |store|
            && (forall i :: 0 <= i < |store| ==>
                  o.store[i] == (if Matches(store[i], p.codigo, p.loja) then p else store[i])))
      && (fault.Fails? ==>
            o == Outcome(Falha(Some(if n > 0 then UpdateAttempt else InsertAttempt),
                               fault.error.GetOr(UnknownError)),
                         store))
  {
    if |Select(store, p.codigo, p.loja)| > 0 {
      SelectUpdateSame(store, p);
    }
  }

  /** `POST /produtos`: an unconditional insert, judged like the others. */
  function Create(store: Store, p: Product, fault: Fault): (o: Outcome)
    ensures fault.NoFault? ==> o == Outcome(Sucesso(None, [p]), store + [p])
    ensures fault.Fails? ==> o == Outcome(Falha(None, fault.error.GetOr(UnknownError)), store)
  {
    var w := Execute(store, Insert(store, p), [p], fault);
    Outcome(Respond(w.reply, None, None), w.store)
  }

  /** `GET /produtos`: the first rows of the table, at most five. */
  function ListProducts(store: Store): (r: seq<Product>)
    ensures |r| == (if |store| < PageSize then |store| else PageSize)
    ensures r <= store
  {
    if |store| < PageSize then store else store[..PageSize]
  }

  // Select over the table operations

  lemma {:induction false} SelectAppend(store: Store, p: Product, codigo: string, loja: string)
    ensures Select(store + [p], codigo, loja)
         == Select(store, codigo, loja) + (if Matches(p, codigo, loja) then [p] else [])
  {
    assert (store + [p])[..|store|] == store;
  }

  /** Updating a key leaves exactly as many rows under it, each now `p`. */
  lemma {:induction false} SelectUpdateSame(store: Store, p: Product)
    ensures var r := Select(Update(store, p, p.codigo, p.loja), p.codigo, p.loja);
      |r| == |Select(store, p.codigo, p.loja)| && forall q :: q in r ==> q == p
    decreases |store|
  {
    if |store| > 0 {
      var init := store[..|store| - 1];
      var u := Update(store, p, p.codigo, p.loja);
      assert u[..|store| - 1] == Update(init, p, p.codigo, p.loja);
      SelectUpdateSame(init, p);
    }
  }

  /** Updating one key does not change what any other key selects. */
  lemma {:induction false} SelectUpdateOther(store: Store, p: Product, codigo: string, loja: string)
    requires !(codigo == p.codigo && loja == p.loja)
    ensures Select(Update(store, p, p.codigo, p.loja), codigo, loja) == Select(store, codigo, loja)
    decreases |store|
  {
    if |store| > 0 {
      var init := store[..|store| - 1];
      var u := Update(store, p, p.codigo, p.loja);
      assert u[..|store| - 1] == Update(init, p, p.codigo, p.loja);
      SelectUpdateOther(init, p, codigo, loja);
    }
  }

  // Properties of the endpoints across calls

  /** A successful synchronisation leaves at least one and otherwise as many
      rows under `p`'s key as before, and every other key selects exactly
      the rows it selected before. */
  lemma {:induction false} SyncKeyCount(store: Store, p: Product, codigo: string, loja: string)
    ensures var n := |Select(store, p.codigo, p.loja)|;
            var after := Sync(store, p, NoFault).store;
            |Select(after, p.codigo, p.loja)| == (if n == 0 then 1 else n)
    ensures !(codigo == p.codigo && loja == p.loja) ==>
              Select(Sync(store, p, NoFault).store, codigo, loja) == Select(store, codigo, loja)
  {
    if |Select(store, p.codigo, p.loja)| > 0 {
      SelectUpdateSame(store, p);
      if !(codigo == p.codigo && loja == p.loja) {
        SelectUpdateOther(store, p, codigo, loja);
      }
    } else {
      SelectAppend(store, p, p.codigo, p.loja);
      SelectAppend(store, p, codigo, loja);
    }
  }

  /** Synchronisation never creates a duplicate key: a table whose keys are
      unique keeps them unique, whatever the backend does with the write. */
  lemma {:induction false} SyncKeepsKeysUnique(store: Store, p: Product, fault: Fault)
    requires KeysUnique(store)
    ensures KeysUnique(Sync(store, p, fault).store)
  {
    var after := Sync(store, p, fault).store;
    if fault.NoFault? {
      if |Select(store, p.codigo, p.loja)| == 0 {
        assert forall i :: 0 <= i < |store| ==> !Matches(store[i], p.codigo, p.loja);
        assert after == store + [p];
        forall i, j | 0 <= i < j < |after|
          ensures !Matches(after[j], after[i].codigo, after[i].loja)
        {
          if j == |store| {
            assert after[i] == store[i];
          }
        }
      }
    }
  }

  /** On a table with unique keys, reading `p`'s key back after a successful
      synchronisation yields exactly `p`, whether it was inserted or
      updated. */
  lemma {:induction false} SyncReadBack(store: Store, p: Product)
    requires KeysUnique(store)
    ensures Select(Sync(store, p, NoFault).store, p.codigo, p.loja) == [p]
  {
    UniqueSelectsAtMostOne(store, p.codigo, p.loja);
    if |Select(store, p.codigo, p.loja)| == 0 {
      InsertReadBack(store, p);
    } else {
      UpdateReadBack(store, p);
    }
  }

  lemma {:induction false} InsertReadBack(store: Store, p: Product)
    requires |Select(store, p.codigo, p.loja)| == 0
    ensures Sync(store, p, NoFault).store == store + [p]
    ensures Select(store + [p], p.codigo, p.loja) == [p]
  {
    SelectAppend(store, p, p.codigo, p.loja);
  }

  lemma {:induction false} UpdateReadBack(store: Store, p: Product)
    requires |Select(store, p.codigo, p.loja)| == 1
    ensures Select(Sync(store, p, NoFault).store, p.codigo, p.loja) == [p]
  {
    var after := Update(store, p, p.codigo, p.loja);
    assert Sync(store, p, NoFault).store == after;
    SelectUpdateSame(store, p);
    var r := Select(after, p.codigo, p.loja);
    assert r[0] in r;
  }

  /** Updating rows that already equal `p` with `p` changes nothing. */
  lemma {:induction false} UpdateUnchanged(store: Store, p: Product)
    requires forall i :: 0 <= i < |store| && Matches(store[i], p.codigo, p.loja) ==> store[i] == p
    ensures Update(store, p, p.codigo, p.loja) == store
  {
  }

  /** With unique keys a key selects at most one row. */
  lemma {:induction false} UniqueSelectsAtMostOne(store: Store, codigo: string, loja: string)
    requires KeysUnique(store)
    ensures |Select(store, codigo, loja)| <= 1
    decreases |store|
  {
    if |store| > 0 {
      var init := store[..|store| - 1];
      assert KeysUnique(init);
      UniqueSelectsAtMostOne(init, codigo, loja);
      var last := store[|store| - 1];
      if Matches(last, codigo, loja) {
        forall i | 0 <= i < |init|
          ensures !Matches(init[i], codigo, loja)
        {
          assert !Matches(store[|store| - 1], store[i].codigo, store[i].loja);
        }
      }
    }
  }

  /** Synchronising the same product twice on a table that lacks its key
      inserts once, then updates; the second call leaves the table as the
      first left it, with a single row under the key. */
  lemma {:induction false} SyncTwice(store: Store, p: Product)
    requires |Select(store, p.codigo, p.loja)| == 0
    ensures var first := Sync(store, p, NoFault);
            var second := Sync(first.store, p, NoFault);
            && first.response.operacao == Some(Inserted)
            && second.response.operacao == Some(Updated)
            && second.store == first.store == store + [p]
            && Select(second.store, p.codigo, p.loja) == [p]
  {
    InsertReadBack(store, p);
    ResyncAfterInsert(store, p);
  }

  lemma {:induction false} ResyncAfterInsert(store: Store, p: Product)
    requires |Select(store, p.codigo, p.loja)| == 0
    ensures Sync(store + [p], p, NoFault).store == store + [p]
    ensures Sync(store + [p], p, NoFault).response.operacao == Some(Updated)
  {
    InsertedRowIsOnlyMatch(store, p);
    SyncCurrent(store + [p], p);
  }

  lemma {:induction false} InsertedRowIsOnlyMatch(store: Store, p: Product)
    requires |Select(store, p.codigo, p.loja)| == 0
    ensures |Select(store + [p], p.codigo, p.loja)| > 0
    ensures forall i :: 0 <= i < |store + [p]| && Matches((store + [p])[i], p.codigo, p.loja) ==>
              (store + [p])[i] == p
  {
    var s1 := store + [p];
    InsertReadBack(store, p);
    forall i | 0 <= i < |store|
      ensures !Matches(s1[i], p.codigo, p.loja)
    {
      assert s1[i] == store[i];
    }
  }

  /** Synchronising a product the table already holds under its key, and
      only it, reports an update and leaves the table as it was. */
  lemma {:induction false} SyncCurrent(store: Store, p: Product)
    requires |Select(store, p.codigo, p.loja)| > 0
    requires forall i :: 0 <= i < |store| && Matches(store[i], p.codigo, p.loja) ==> store[i] == p
    ensures Sync(store, p, NoFault).store == store
    ensures Sync(store, p, NoFault).response.operacao == Some(Updated)
  {
    UpdateUnchanged(store, p);
  }

  /** The plain insert endpoint does not look for the key: creating a
      product whose key is already present adds one more row under it, so
      the table no longer has unique keys. */
  lemma {:induction false} CreateDuplicates(store: Store, p: Product)
    requires |Select(store, p.codigo, p.loja)| > 0
    ensures var after := Create(store, p, NoFault).store;
            && |Select(after, p.codigo, p.loja)| == |Select(store, p.codigo, p.loja)| + 1
            && !KeysUnique(after)
  {
    var after := Create(store, p, NoFault).store;
    SelectAppend(store, p, p.codigo, p.loja);
    var q := Select(store, p.codigo, p.loja)[0];
    SelectMembers(store, p.codigo, p.loja);
    assert q in Select(store, p.codigo, p.loja);
    var i :| 0 <= i < |store| && store[i] == q;
    assert after[i] == q && after[|store|] == p;
    assert Matches(after[|store|], after[i].codigo, after[i].loja);
  }
}

=== FILE: codes.dfy ===
/** The product code normalisation of the spreadsheet importer:
    `str(code).strip().zfill(6)`. */
module Codes {
  import opened Text

  /** Width the importer pads product codes to. */
  const CodeWidth: nat := 6

  function Max(a: int, b: int): int {
    if a < b then b else a
  }

  function Zeros(n: nat): (r: string)
    ensures |r| == n && AllZeros(r)
  {
    if n == 0 then "" else Zeros(n - 1) + "0"
  }

  /** `r` is `s` padded to `width` as `zfill` pads: `r` is `max(width, |s|)`
      long, equals `s` when `s` is already that long, and otherwise is `s`
      with zeros inserted at the front, or just after a leading sign. */
  predicate ZeroPadded(r: string, s: string, width: nat) {
    && |r| == Max(width, |s|)
    && (|s| >= width ==> r == s)
    && (!Signed(s) ==> r[|r| - |s|..] == s && AllZeros(r[..|r| - |s|]))
    && (Signed(s) ==>
          && r[0] == s[0]
          && AllZeros(r[1..|r| - |s| + 1])
          && r[|r| - |s| + 1..] == s[1..])
  }

  /** Python's `str.zfill(width)`: left-pad with '0' up to `width`
      characters, keeping a leading sign in front of the zeros. A string that
      is already `width` long or longer comes back unchanged. */
  function ZFill(s: string, width: nat): (r: string)
    ensures |r| == Max(width, |s|)
  {
    if |s| >= width then s
    else if Signed(s) then [s[0]] + Zeros(width - |s|) + s[1..]
    else Zeros(width - |s|) + s
  }

  /** `zfill` pads as described by `ZeroPadded`. */
  lemma {:induction false} ZFillPads(s: string, width: nat)
    ensures ZeroPadded(ZFill(s, width), s, width)
  {
    var r := ZFill(s, width);
    if |s| < width {
      var z := Zeros(width - |s|);
      if Signed(s) {
        assert r == [s[0]] + z + s[1..];
        assert r[1..|r| - |s| + 1] == z;
        assert r[|r| - |s| + 1..] == s[1..];
      } else {
        assert r == z + s;
        assert r[..|r| - |s|] == z;
        assert r[|r| - |s|..] == s;
      }
    }
  }

  /** The `codigo` field of an imported row, given the cell's text: the
      stripped text, zero-padded to six characters. */
  function NormalizeCode(s: string): (r: string)
    ensures |r| == Max(CodeWidth, |Trim(StrBlanks, s)|)
  {
    ZFill(Trim(StrBlanks, s), CodeWidth)
  }

  /** The code is never shorter than six characters, ends with the stripped
      text behind '0' padding when that carries no sign, puts the padding
      after the sign when it does, and keeps a stripped code of six or more
      characters unchanged. */
  lemma {:induction false} NormalizeCodePads(s: string)
    ensures ZeroPadded(NormalizeCode(s), Trim(StrBlanks, s), CodeWidth)
  {
    ZFillPads(Trim(StrBlanks, s), CodeWidth);
  }

  /** Padding a stripped string produces a stripped string: the padding
      zeros and the sign are not whitespace. */
  lemma {:induction false} ZFillStripped(s: string, width: nat)
    requires Stripped(StrBlanks, s)
    ensures Stripped(StrBlanks, ZFill(s, width))
  {
    var r := ZFill(s, width);
    ZFillPads(s, width);
    if |s| < width {
      if Signed(s) {
        assert r[0] == s[0];
        if |s| > 1 {
          assert r[|r| - 1] == s[1..][|s| - 2] == s[|s| - 1];
        } else {
          assert r[|r| - 1] == r[1..|r| - |s| + 1][|r| - 2] == '0';
        }
      } else {
        assert r[0] == r[..|r| - |s|][0] == '0';
        if |s| > 0 {
          assert r[|r| - 1] == r[|r| - |s|..][|s| - 1] == s[|s| - 1];
        } else {
          assert r[|r| - 1] == r[..|r| - |s|][|r| - 1] == '0';
        }
      }
    }
  }

  /** Normalising an already normalised code changes nothing, so a code that
      has passed through the importer once is a fixed point. */
  lemma {:induction false} NormalizeCodeIdempotent(s: string)
    ensures NormalizeCode(NormalizeCode(s)) == NormalizeCode(s)
  {
    var r := NormalizeCode(s);
    NormalizedShape(s);
    TrimStripped(StrBlanks, r);
  }

  /** A normalised code is stripped and at least six characters long. */
  lemma {:induction false} NormalizedShape(s: string)
    ensures Stripped(StrBlanks, NormalizeCode(s)) && |NormalizeCode(s)| >= CodeWidth
  {
    ZFillStripped(Trim(StrBlanks, s), CodeWidth);
  }

  /** A code that carries no surrounding whitespace is only padded. */
  lemma {:induction false} NormalizeStripped(s: string)
    requires Stripped(StrBlanks, s)
    ensures NormalizeCode(s) == ZFill(s, CodeWidth)
  {
    TrimStripped(StrBlanks, s);
  }

  lemma ZFillExamples()
    ensures ZFill("42", CodeWidth) == "000042"
    ensures ZFill("-42", CodeWidth) == "-00042"
    ensures ZFill("nan", CodeWidth) == "000nan"
  {
    assert Zeros(1) == "0";
    assert Zeros(2) == "00";
    assert Zeros(3) == "000";
    assert Zeros(4) == "0000";
  }

  /** Worked examples of the code normalisation: a short code, a code
      between spaces, a signed code and an empty cell. */
  lemma NormalizeCodeShort()
    ensures NormalizeCode("42") == "000042"
  {
    NormalizeStripped("42");
    ZFillExamples();
  }

  lemma NormalizeCodeSurroundedBySpaces()
    ensures NormalizeCode(" 123456 ") == "123456"
  {
    assert " " + "123456" + " " == " 123456 ";
    TrimUnique(StrBlanks, " ", "123456", " ");
  }

  lemma NormalizeCodeSigned()
    ensures NormalizeCode("-42") == "-00042"
  {
    NormalizeStripped("-42");
    ZFillExamples();
  }

  /** An empty code cell prints as "nan" and is padded like any code. */
  lemma NormalizeCodeNan()
    ensures NormalizeCode("nan") == "000nan"
  {
    NormalizeStripped("nan");
    ZFillExamples();
  }
}

=== FILE: integers.dfy ===
/** Python's `int(text)` on the cell texts of the stock columns, and the
    decimal rendering it reads back. */
module Integers {
  import opened Wrappers
  import opened Text

  predicate IsDigit(c: char) {
    '0' <= c <= '9'
  }

  predicate AllDigits(s: string) {
    forall i :: 0 <= i < |s| ==> IsDigit(s[i])
  }

  function DigitValue(c: char): nat
    requires IsDigit(c)
  {
    (c as int) - ('0' as int)
  }

  function DigitChar(d: nat): (c: char)
    requires d < 10
    ensures IsDigit(c) && DigitValue(c) == d
  {
    (('0' as int) + d) as char
  }

  /** The value of a run of decimal digits, most significant first. */
  function DigitsValue(s: string): nat
    requires AllDigits(s)
  {
    if |s| == 0 then 0 else DigitsValue(s[..|s| - 1]) * 10 + DigitValue(s[|s| - 1])
  }

  /** The text `int()` accepts once the whitespace it skips is removed from
      both ends: an optional sign followed by at least one decimal digit. */
  predicate IsIntLiteral(t: string) {
    if Signed(t) then |t| > 1 && AllDigits(t[1..]) else |t| > 0 && AllDigits(t)
  }

  /** `int(text)`: `None` stands for the `ValueError` Python raises. */
  function ParseInt(text: string): (r: Option<int>)
    ensures r.Some? <==> IsIntLiteral(Trim(IntBlanks, text))
    ensures r.Some? && !Signed(Trim(IntBlanks, text)) ==> r.value >= 0
    ensures r.Some? && Trim(IntBlanks, text)[0] == '-' ==> r.value <= 0
  {
    var t := Trim(IntBlanks, text);
    if !IsIntLiteral(t) then None
    else if t[0] == '-' then Some(-(DigitsValue(t[1..]) as int))
    else if t[0] == '+' then Some(DigitsValue(t[1..]))
    else Some(DigitsValue(t))
  }

  /** Decimal rendering of a natural number, without leading zeros. */
  function ShowNat(n: nat): (r: string)
    ensures |r| > 0 && AllDigits(r)
  {
    if n < 10 then [DigitChar(n)] else ShowNat(n / 10) + [DigitChar(n % 10)]
  }

  /** Decimal rendering of an integer, as `str(n)` writes it. */
  function Show(n: int): (r: string)
    ensures IsIntLiteral(r) && Stripped(IntBlanks, r)
  {
    if n < 0 then "-" + ShowNat(-n) else ShowNat(n)
  }

  lemma {:induction false} ShowNatValue(n: nat)
    ensures DigitsValue(ShowNat(n)) == n
  {
    if n >= 10 {
      var s := ShowNat(n);
      assert s[..|s| - 1] == ShowNat(n / 10);
      ShowNatValue(n / 10);
    }
  }

  /** `int()` only looks at the text between the whitespace it skips. */
  lemma ParseIntIgnoresSpace(s: string)
    ensures ParseInt(s) == ParseInt(Trim(IntBlanks, s))
  {
    TrimIdempotent(IntBlanks, s);
  }

  lemma {:induction false} ParseIntShowExact(n: int)
    ensures ParseInt(Show(n)) == Some(n)
  {
    if n < 0 {
      ParseIntShowNegative(n);
    } else {
      ParseIntShowNat(n);
    }
  }

  lemma {:induction false} ParseIntShowNat(n: nat)
    ensures ParseInt(ShowNat(n)) == Some(n)
  {
    LiteralDigits(ShowNat(n));
    ShowNatValue(n);
  }

  /** A digit is not whitespace to either strip. */
  lemma DigitNotBlank(w: Blanks, c: char)
    requires IsDigit(c)
    ensures !IsBlank(w, c)
  {
  }

  lemma {:induction false} ParseIntShowNegative(n: int)
    requires n < 0
    ensures ParseInt(Show(n)) == Some(n)
  {
    ShowNatValue(-n);
    SignedLiteral('-', ShowNat(-n));
  }

  /** A sign followed by a non-empty run of digits is read as the signed
      value of the digits. */
  lemma {:induction false} SignedLiteral(sign: char, d: string)
    requires sign == '+' || sign == '-'
    requires |d| > 0 && AllDigits(d)
    ensures ParseInt([sign] + d)
         == Some(if sign == '-' then -(DigitsValue(d) as int) else DigitsValue(d))
  {
    var s := [sign] + d;
    assert s[1..] == d && s[0] == sign;
    assert s[|s| - 1] == d[|d| - 1];
    DigitNotBlank(IntBlanks, d[|d| - 1]);
    TrimStripped(IntBlanks, s);
  }

  /** `int()` reads back every integer it is shown, whatever run of the
      whitespace it skips surrounds the digits. */
  lemma {:induction false} ParseIntShow(a: string, n: int, b: string)
    requires AllSpace(IntBlanks, a) && AllSpace(IntBlanks, b)
    ensures ParseInt(a + Show(n) + b) == Some(n)
  {
    TrimUnique(IntBlanks, a, Show(n), b);
    ParseIntIgnoresSpace(a + Show(n) + b);
    ParseIntShowExact(n);
  }

  /** `int()` also accepts an explicit plus sign. */
  lemma {:induction false} ParseIntPlusSign(n: nat)
    ensures ParseInt("+" + ShowNat(n)) == Some(n)
  {
    ShowNatValue(n);
    SignedLiteral('+', ShowNat(n));
  }

  /** Zeros in front of the digits do not change their value. */
  lemma {:induction false} DigitsValueLeadingZeros(z: string, s: string)
    requires AllZeros(z)
    requires AllDigits(s)
    ensures AllDigits(z + s) && DigitsValue(z + s) == DigitsValue(s)
    decreases |z|
  {
    if |z| > 0 {
      var rest := z[1..] + s;
      DigitsValueLeadingZeros(z[1..], s);
      assert z + s == "0" + rest;
      DigitsValueLeadingZero(rest);
      assert DigitsValue(z + s) == DigitsValue(rest) == DigitsValue(s);
    } else {
      assert z + s == s;
    }
  }

  lemma {:induction false} DigitsValueLeadingZero(s: string)
    requires AllDigits(s)
    ensures AllDigits("0" + s) && DigitsValue("0" + s) == DigitsValue(s)
    decreases |s|
  {
    var t := "0" + s;
    if |s| > 0 {
      assert t[..|t| - 1] == "0" + s[..|s| - 1];
      DigitsValueLeadingZero(s[..|s| - 1]);
    }
  }

  /** `int()` reads a number written with leading zeros, such as "007", as
      the number itself. */
  lemma {:induction false} ParseIntLeadingZeros(z: string, n: nat)
    requires AllZeros(z)
    ensures ParseInt(z + ShowNat(n)) == Some(n)
  {
    var d := ShowNat(n);
    var s := z + d;
    DigitsValueLeadingZeros(z, d);
    ShowNatValue(n);
    assert DigitsValue(s) == n;
    assert s[|s| - 1] == d[|d| - 1];
    LiteralDigits(s);
  }

  /** A non-empty run of digits is read as its value. */
  lemma {:induction false} LiteralDigits(s: string)
    requires |s| > 0 && AllDigits(s)
    ensures ParseInt(s) == Some(DigitsValue(s))
  {
    DigitNotBlank(IntBlanks, s[0]);
    DigitNotBlank(IntBlanks, s[|s| - 1]);
    assert !Signed(s);
    TrimStripped(IntBlanks, s);
  }

  lemma ParseIntZeroSevenExample()
    ensures ParseInt(" 007 ") == Some(7)
  {
    assert " " + "007" + " " == " 007 ";
    assert Stripped(IntBlanks, "007") && AllSpace(IntBlanks, " ");
    TrimUnique(IntBlanks, " ", "007", " ");
    ParseIntIgnoresSpace(" 007 ");
    ParseIntZeroSeven("007");
  }

  /** The text `"007"` is passed as a parameter, not written as a literal
      inside the proof, so that the solver does not unfold `ParseInt` on the
      literal. */
  lemma ParseIntZeroSeven(s: string)
    requires s == "007"
    ensures ParseInt(s) == Some(7)
  {
    ZeroSevenDigits(s);
    ParseIntLeadingZeros("00", 7);
  }

  lemma ZeroSevenDigits(s: string)
    requires s == "007"
    ensures AllZeros("00") && s == "00" + ShowNat(7)
  {
    assert ShowNat(7) == [DigitChar(7)] == "7";
  }

  /** `int()` skips less than `strip()` removes: an information separator
      in front of the digits is whitespace to `strip()`, but `int()`
      rejects the text. */
  lemma ParseIntSeparatorExample()
    ensures Trim(StrBlanks, "\U{001C}7") == "7"
    ensures ParseInt("\U{001C}7") == None
  {
    var s := "\U{001C}7";
    assert s == "\U{001C}" + "7" + "";
    TrimUnique(StrBlanks, "\U{001C}", "7", "");
    ParseIntSeparatorRejected(s);
  }

  lemma ParseIntSeparatorRejected(s: string)
    requires s == "\U{001C}7"
    ensures ParseInt(s) == None
  {
    assert !IntSpace(s[0]) && !IntSpace(s[1]);
    TrimStripped(IntBlanks, s);
    assert !Signed(s) && !IsDigit(s[0]);
    assert !IsIntLiteral(s);
  }
}

=== FILE: products.dfy ===
/** The product record the API receives and the store keeps. */
module Products {
  import opened Wrappers

  /** The `preco` float, carried opaquely: `NaN` is what `float()` makes of
      an empty spreadsheet cell, `Amount` the text of a price that was
      present. No arithmetic is done on prices anywhere in the system. */
  datatype Price = NaN | Amount(text: string)

  /** One product. `codigo` and `loja` together are the business key the
      synchronisation endpoint matches on; `codBarra` is `None` when no
      barcode was recorded. */
  datatype Product = Product(
    codigo: string,
    descricao: string,
    preco: Price,
    loja: string,
    estado: string,
    codBarra: Option<string>,
    sloja: int,
    sestoque: int,
    sminimo: int,
    smaximo: int)
}

=== FILE: spreadsheet.dfy ===
/** The payload the importer builds from one spreadsheet row. A row maps
    column headers to cells; a cell is either empty (pandas' NaN) or holds
    the text of its value. */
module Spreadsheet {
  import opened Wrappers
  import opened Text
  import opened Codes
  import opened Integers
  import opened Products

  datatype Cell = Missing | Present(text: string)

  type Row = map<string, Cell>

  const Estado := "estado"
  const Codigo := "código"
  const CodBarra := "cód.barra"
  const Descricao := "descrição"
  const SLoja := "sloja"
  const SEstoque := "sestoque"
  const Preco := "preço"
  const SMinimo := "sminimo"
  const SMaximo := "smaximo"
  const Loja := "loja"

  /** The columns in the order the payload reads them; the first one that
      is absent or unreadable decides the error. */
  const Columns: seq<string> :=
    [Estado, Codigo, CodBarra, Descricao, SLoja, SEstoque, Preco, SMinimo, SMaximo, Loja]

  /** Which column sits at each position of `Columns`. */
  lemma ColumnsLayout()
    ensures Columns[0] == Estado && Columns[1] == Codigo && Columns[2] == CodBarra
    ensures Columns[3] == Descricao && Columns[4] == SLoja && Columns[5] == SEstoque
    ensures Columns[6] == Preco && Columns[7] == SMinimo && Columns[8] == SMaximo
    ensures Columns[9] == Loja
  {
  }

  /** Positions in `Columns` of the stock counters, which are read with
      `int()` and default to 0. */
  predicate IsCounterAt(j: int) {
    j == 4 || j == 5 || j == 7 || j == 8
  }

  /** Why a row was skipped: a column absent from the sheet (`KeyError`), or
      a counter cell `int()` rejects (`ValueError`). */
  datatype ExtractError = MissingColumn(column: string) | NotAnInteger(column: string, text: string)

  /** `str(cell)`: an empty cell prints as "nan". */
  function Render(c: Cell): string {
    match c
    case Missing => "nan"
    case Present(t) => t
  }

  /** `row[column]`. */
  function Lookup(row: Row, column: string): (r: Result<Cell, ExtractError>)
    ensures r.Success? <==> column in row
    ensures r.Success? ==> r.value == row[column]
    ensures r.Failure? ==> r.error == MissingColumn(column)
  {
    if column in row then Success(row[column]) else Failure(MissingColumn(column))
  }

  /** The counter column is there and its cell is empty or holds an
      integer. */
  predicate CounterReadable(row: Row, column: string) {
    column in row && (row[column].Missing? || ParseInt(row[column].text).Some?)
  }

  /** `int(row[column]) if pd.notna(row[column]) else 0`. */
  function Counter(row: Row, column: string): (r: Result<int, ExtractError>)
    ensures r.Success? <==> CounterReadable(row, column)
    ensures r.Success? && row[column].Missing? ==> r.value == 0
    ensures r.Success? && row[column].Present? ==> Some(r.value) == ParseInt(row[column].text)
    ensures r.Failure? ==>
              r.error == if column !in row then MissingColumn(column)
                         else NotAnInteger(column, row[column].text)
  {
    var c :- Lookup(row, column);
    match c
    case Missing => Success(0)
    case Present(t) =>
      match ParseInt(t)
      case Some(n) => Success(n)
      case None => Failure(NotAnInteger(column, t))
  }

  /** `str(cell).strip() if pd.notna(cell) else None`. */
  function Barcode(c: Cell): (r: Option<string>)
    ensures r.None? <==> c.Missing?
    ensures c.Present? ==> r == Some(Trim(StrBlanks, c.text)) && Stripped(StrBlanks, r.value)
  {
    match c
    case Missing => None
    case Present(t) => Some(Trim(StrBlanks, t))
  }

  /** `float(cell)`, with no default: an empty cell gives NaN. */
  function PriceOf(c: Cell): Price {
    match c
    case Missing => NaN
    case Present(t) => Amount(t)
  }

  /** The column at position `j` stops the row: it is absent, or it is a
      counter whose cell holds text `int()` rejects. */
  predicate FaultyAt(row: Row, j: int)
    requires 0 <= j < |Columns|
  {
    if IsCounterAt(j) then !CounterReadable(row, Columns[j]) else Columns[j] !in row
  }

  /** No column of the row stops it, spelled out column by column. */
  predicate Readable(row: Row) {
    && Estado in row && Codigo in row && CodBarra in row && Descricao in row
    && CounterReadable(row, SLoja) && CounterReadable(row, SEstoque)
    && Preco in row
    && CounterReadable(row, SMinimo) && CounterReadable(row, SMaximo)
    && Loja in row
  }

  lemma {:induction false} ReadableColumns(row: Row)
    ensures Readable(row) <==> forall j :: 0 <= j < |Columns| ==> !FaultyAt(row, j)
  {
    ColumnsLayout();
    if Readable(row) {
      forall j | 0 <= j < |Columns|
        ensures !FaultyAt(row, j)
      {
        assert j in {0, 1, 2, 3, 4, 5, 6, 7, 8, 9};
      }
    } else {
      assert !(forall j :: 0 <= j < |Columns| ==> !FaultyAt(row, j)) by {
        assert FaultyAt(row, 0) || FaultyAt(row, 1) || FaultyAt(row, 2) || FaultyAt(row, 3)
            || FaultyAt(row, 4) || FaultyAt(row, 5) || FaultyAt(row, 6) || FaultyAt(row, 7)
            || FaultyAt(row, 8) || FaultyAt(row, 9);
      }
    }
  }

  /** The payload of `row`, or the error that skips it. */
  function Extract(row: Row): (r: Result<Product, ExtractError>)
    ensures r.Success? <==> Readable(row)
    ensures r.Failure? ==> r.error.column in Columns
    ensures r.Success? ==>
              && r.value.codigo == NormalizeCode(Render(row[Codigo]))
              && r.value.codBarra == Barcode(row[CodBarra])
              && r.value.preco == PriceOf(row[Preco])
              && r.value.estado == Render(row[Estado])
              && r.value.descricao == Render(row[Descricao])
              && r.value.loja == Render(row[Loja])
              && (row[SLoja].Missing? ==> r.value.sloja == 0)
              && (row[SEstoque].Missing? ==> r.value.sestoque == 0)
              && (row[SMinimo].Missing? ==> r.value.sminimo == 0)
              && (row[SMaximo].Missing? ==> r.value.smaximo == 0)
              && (row[SLoja].Present? ==> ParseInt(row[SLoja].text) == Some(r.value.sloja))
              && (row[SEstoque].Present? ==> ParseInt(row[SEstoque].text) == Some(r.value.sestoque))
              && (row[SMinimo].Present? ==> ParseInt(row[SMinimo].text) == Some(r.value.sminimo))
              && (row[SMaximo].Present? ==> ParseInt(row[SMaximo].text) == Some(r.value.smaximo))
  {
    var estado :- Lookup(row, Estado);
    var codigo :- Lookup(row, Codigo);
    var codBarra :- Lookup(row, CodBarra);
    var descricao :- Lookup(row, Descricao);
    var sloja :- Counter(row, SLoja);
    var sestoque :- Counter(row, SEstoque);
    var preco :- Lookup(row, Preco);
    var sminimo :- Counter(row, SMinimo);
    var smaximo :- Counter(row, SMaximo);
    var loja :- Lookup(row, Loja);
    Success(Product(
      codigo := NormalizeCode(Render(codigo)),
      descricao := Render(descricao),
      preco := PriceOf(preco),
      loja := Render(loja),
      estado := Render(estado),
      codBarra := Barcode(codBarra),
      sloja := sloja,
      sestoque := sestoque,
      sminimo := sminimo,
      smaximo := smaximo))
  }

  /** The error names the first column, in the order the payload reads
      them, that stops the row; it is a `MissingColumn` exactly when that
      column is absent. */
  lemma {:induction false} ExtractReportsFirstFault(row: Row)
    ensures var r := Extract(row);
      r.Failure? ==>
        exists k :: 0 <= k < |Columns| && Columns[k] == r.error.column
          && FaultyAt(row, k)
          && (forall i :: 0 <= i < k ==> !FaultyAt(row, i))
          && (r.error.MissingColumn? <==> Columns[k] !in row)
  {
    if Extract(row).Failure? {
      FirstFaultReported(row);
      FirstFaultIsFirst(row);
      var k := FirstFault(row);
      assert Columns[k] == Extract(row).error.column && FaultyAt(row, k);
    }
  }

  /** Position in `Columns` of the first column that stops the row, in the
      order the payload reads them, or `|Columns|` when none does. */
  function FirstFault(row: Row): (k: nat)
    ensures k <= |Columns|
  {
    if Estado !in row then 0
    else if Codigo !in row then 1
    else if CodBarra !in row then 2
    else if Descricao !in row then 3
    else if !CounterReadable(row, SLoja) then 4
    else if !CounterReadable(row, SEstoque) then 5
    else if Preco !in row then 6
    else if !CounterReadable(row, SMinimo) then 7
    else if !CounterReadable(row, SMaximo) then 8
    else if Loja !in row then 9
    else 10
  }

  lemma FirstFaultIsFirst(row: Row)
    ensures forall i :: 0 <= i < FirstFault(row) ==> !FaultyAt(row, i)
  {
    ColumnsLayout();
    forall i | 0 <= i < FirstFault(row)
      ensures !FaultyAt(row, i)
    {
      assert i in {0, 1, 2, 3, 4, 5, 6, 7, 8, 9};
    }
  }

  lemma FirstFaultReported(row: Row)
    requires Extract(row).Failure?
    ensures FirstFault(row) < |Columns|
    ensures Columns[FirstFault(row)] == Extract(row).error.column
    ensures FaultyAt(row, FirstFault(row))
    ensures Extract(row).error.MissingColumn? <==> Columns[FirstFault(row)] !in row
  {
    ColumnsLayout();
  }

  /** A payload as the importer produces it: the code is padded and the
      barcode, if any, stripped. */
  predicate Normalized(p: Product) {
    && NormalizeCode(p.codigo) == p.codigo
    && (p.codBarra.Some? ==> Stripped(StrBlanks, p.codBarra.value))
  }

  /** Every payload the importer builds is normalised, so its code has at
      least six characters. */
  lemma {:induction false} ExtractNormalized(row: Row)
    requires Extract(row).Success?
    ensures Normalized(Extract(row).value)
    ensures |Extract(row).value.codigo| >= CodeWidth
  {
    NormalizeCodeIdempotent(Render(row[Codigo]));
  }

  /** The cell from which `Extract` reads the barcode back; with
      `PriceCell` and `RowOf` it inverts reading a row. */
  function BarcodeCell(b: Option<string>): Cell {
    match b
    case None => Missing
    case Some(t) => Present(t)
  }

  function PriceCell(p: Price): Cell {
    match p
    case NaN => Missing
    case Amount(t) => Present(t)
  }

  /** The spreadsheet row holding `p`, counters written in decimal. */
  function RowOf(p: Product): Row {
    map[
      Estado := Present(p.estado),
      Codigo := Present(p.codigo),
      CodBarra := BarcodeCell(p.codBarra),
      Descricao := Present(p.descricao),
      SLoja := Present(Show(p.sloja)),
      SEstoque := Present(Show(p.sestoque)),
      Preco := PriceCell(p.preco),
      SMinimo := Present(Show(p.sminimo)),
      SMaximo := Present(Show(p.smaximo)),
      Loja := Present(p.loja)]
  }

  /** The counter column holds text `int()` reads as `n`. */
  predicate CounterHolds(row: Row, column: string, n: int) {
    column in row && row[column].Present? && ParseInt(row[column].text) == Some(n)
  }

  /** The row holds `p`'s fields as `RowOf(p)` writes them. */
  predicate HoldsCells(row: Row, p: Product) {
    && Estado in row && row[Estado] == Present(p.estado)
    && Codigo in row && row[Codigo] == Present(p.codigo)
    && CodBarra in row && row[CodBarra] == BarcodeCell(p.codBarra)
    && Descricao in row && row[Descricao] == Present(p.descricao)
    && CounterHolds(row, SLoja, p.sloja)
    && CounterHolds(row, SEstoque, p.sestoque)
    && Preco in row && row[Preco] == PriceCell(p.preco)
    && CounterHolds(row, SMinimo, p.sminimo)
    && CounterHolds(row, SMaximo, p.smaximo)
    && Loja in row && row[Loja] == Present(p.loja)
  }

  lemma {:induction false} ShowHolds(row: Row, column: string, n: int)
    requires column in row && row[column] == Present(Show(n))
    ensures CounterHolds(row, column, n)
  {
    ParseIntShowExact(n);
  }

  /** The cells `RowOf(p)` writes, spelled out column by column so that
      reading them back never has to look inside the map display. */
  predicate WritesCells(row: Row, p: Product) {
    && Estado in row && row[Estado] == Present(p.estado)
    && Codigo in row && row[Codigo] == Present(p.codigo)
    && CodBarra in row && row[CodBarra] == BarcodeCell(p.codBarra)
    && Descricao in row && row[Descricao] == Present(p.descricao)
    && SLoja in row && row[SLoja] == Present(Show(p.sloja))
    && SEstoque in row && row[SEstoque] == Present(Show(p.sestoque))
    && Preco in row && row[Preco] == PriceCell(p.preco)
    && SMinimo in row && row[SMinimo] == Present(Show(p.sminimo))
    && SMaximo in row && row[SMaximo] == Present(Show(p.smaximo))
    && Loja in row && row[Loja] == Present(p.loja)
  }

  lemma RowOfWrites(p: Product)
    ensures WritesCells(RowOf(p), p)
  {
  }

  lemma {:induction false} WrittenCellsHold(row: Row, p: Product)
    requires WritesCells(row, p)
    ensures HoldsCells(row, p)
  {
    ShowHolds(row, SLoja, p.sloja);
    ShowHolds(row, SEstoque, p.sestoque);
    ShowHolds(row, SMinimo, p.sminimo);
    ShowHolds(row, SMaximo, p.smaximo);
  }

  /** A stripped barcode survives being written to a cell and read back. */
  lemma {:induction false} BarcodeCellRoundTrip(b: Option<string>)
    requires b.Some? ==> Stripped(StrBlanks, b.value)
    ensures Barcode(BarcodeCell(b)) == b
  {
    if b.Some? {
      TrimStripped(StrBlanks, b.value);
    }
  }

  lemma {:induction false} HoldsCellsReadable(row: Row, p: Product)
    requires HoldsCells(row, p)
    ensures Readable(row)
  {
  }

  lemma {:induction false} HoldsCellsText(row: Row, p: Product)
    requires Normalized(p) && HoldsCells(row, p) && Readable(row)
    ensures var q := Extract(row).value;
      q.codigo == p.codigo && q.estado == p.estado && q.descricao == p.descricao && q.loja == p.loja
  {
  }

  lemma {:induction false} HoldsCellsBarcode(row: Row, p: Product)
    requires Normalized(p) && HoldsCells(row, p) && Readable(row)
    ensures Extract(row).value.codBarra == p.codBarra
  {
    BarcodeCellRoundTrip(p.codBarra);
  }

  lemma {:induction false} HoldsCellsPrice(row: Row, p: Product)
    requires HoldsCells(row, p) && Readable(row)
    ensures Extract(row).value.preco == p.preco
  {
  }

  lemma {:induction false} HoldsCellsCounters(row: Row, p: Product)
    requires HoldsCells(row, p) && Readable(row)
    ensures var q := Extract(row).value;
      q.sloja == p.sloja && q.sestoque == p.sestoque && q.sminimo == p.sminimo && q.smaximo == p.smaximo
  {
  }

  /** Any row holding a normalised product's cells, whatever other columns
      it has, extracts to that product. */
  lemma {:induction false} ExtractHoldsCells(row: Row, p: Product)
    requires Normalized(p) && HoldsCells(row, p)
    ensures Extract(row) == Success(p)
  {
    HoldsCellsReadable(row, p);
    HoldsCellsText(row, p);
    HoldsCellsBarcode(row, p);
    HoldsCellsPrice(row, p);
    HoldsCellsCounters(row, p);
  }

  /** Reading back the row a normalised product is written to gives the
      product: extraction loses nothing the record holds. */
  lemma {:induction false} ExtractRowOf(p: Product)
    requires Normalized(p)
    ensures Extract(RowOf(p)) == Success(p)
  {
    RowOfWrites(p);
    WrittenCellsHold(RowOf(p), p);
    ExtractHoldsCells(RowOf(p), p);
  }

  /** Every column is present and every cell empty. */
  predicate AllEmpty(row: Row) {
    forall j :: 0 <= j < |Columns| ==> Columns[j] in row && row[Columns[j]].Missing?
  }

  /** A row of empty cells has its payload built: the counters fall back to 0 and
      the barcode to `None`, while the price gets no default and stays NaN
      and the text fields read "nan", the code padded to "000nan". */
  lemma {:induction false} ExtractAllEmpty(row: Row)
    requires AllEmpty(row)
    ensures Extract(row) == Success(Product(
      codigo := "000nan", descricao := "nan", preco := NaN, loja := "nan", estado := "nan",
      codBarra := None, sloja := 0, sestoque := 0, sminimo := 0, smaximo := 0))
  {
    ColumnsLayout();
    assert row[Codigo] == Missing;
    NormalizeCodeNan();
  }
}

=== FILE: text.dfy ===
/** Whitespace and stripping as Python applies them to `str` values. The
    program meets two whitespace sets: the one `str.strip()` removes and the
    narrower one `int()` skips around its digits. */
module Text {

  /** Python's `str.isspace` for a single character: the ASCII whitespace
      characters, the information separators U+001C..U+001F, and the Unicode
      space characters. */
  predicate IsSpace(c: char) {
    || c == ' ' || c == '\t' || c == '\n' || c == '\r'
    || c == '\U{000B}' || c == '\U{000C}'
    || ('\U{001C}' <= c <= '\U{001F}')
    || c == '\U{0085}' || c == '\U{00A0}' || c == '\U{1680}'
    || ('\U{2000}' <= c <= '\U{200A}')
    || c == '\U{2028}' || c == '\U{2029}' || c == '\U{202F}' || c == '\U{205F}'
    || c == '\U{3000}'
  }

  /** The whitespace `int()` skips before and after the digits. It first
      turns every non-ASCII `isspace` character into a space and then skips
      only the six ASCII whitespace characters, so the information
      separators U+001C..U+001F are not skipped. */
  predicate IntSpace(c: char) {
    || c == ' ' || c == '\t' || c == '\n' || c == '\r'
    || c == '\U{000B}' || c == '\U{000C}'
    || (c as int >= 127 && IsSpace(c))
  }

  /** Which whitespace set a strip removes: `str.strip()`'s or `int()`'s. */
  datatype Blanks = StrBlanks | IntBlanks

  predicate IsBlank(w: Blanks, c: char) {
    match w
    case StrBlanks => IsSpace(c)
    case IntBlanks => IntSpace(c)
  }

  /** Every character `int()` skips is one `strip()` removes. */
  lemma IntSpaceIsSpace(c: char)
    ensures IsBlank(IntBlanks, c) ==> IsBlank(StrBlanks, c)
  {
  }

  /** True of a string that stripping leaves alone: it is empty or neither
      begins nor ends with whitespace. */
  predicate Stripped(w: Blanks, s: string) {
    |s| == 0 || (!IsBlank(w, s[0]) && !IsBlank(w, s[|s| - 1]))
  }

  predicate AllSpace(w: Blanks, s: string) {
    forall i :: 0 <= i < |s| ==> IsBlank(w, s[i])
  }

  /** Begins with a '+' or '-' sign, which both `int()` and `zfill` treat
      specially. */
  predicate Signed(s: string) {
    |s| > 0 && (s[0] == '+' || s[0] == '-')
  }

  /** Consists of '0' characters only. */
  predicate AllZeros(s: string) {
    forall i :: 0 <= i < |s| ==> s[i] == '0'
  }

  /** `s.lstrip()`: the suffix of `s` left once leading whitespace is
      dropped. */
  function TrimStart(w: Blanks, s: string): (r: string)
    ensures |r| <= |s| && r == s[|s| - |r|..]
    ensures |r| == 0 || !IsBlank(w, r[0])
  {
    if |s| > 0 && IsBlank(w, s[0]) then TrimStart(w, s[1..]) else s
  }

  /** Everything `lstrip()` drops is whitespace. */
  lemma {:induction false} TrimStartDrops(w: Blanks, s: string)
    ensures AllSpace(w, s[..|s| - |TrimStart(w, s)|])
    decreases |s|
  {
    if |s| > 0 && IsBlank(w, s[0]) {
      var n := |s| - |TrimStart(w, s)|;
      TrimStartDrops(w, s[1..]);
      assert s[..n] == [s[0]] + s[1..][..n - 1];
    }
  }

  /** `s.rstrip()`: the prefix of `s` left once trailing whitespace is
      dropped. */
  function TrimEnd(w: Blanks, s: string): (r: string)
    ensures |r| <= |s| && r == s[..|r|]
    ensures |r| == 0 || !IsBlank(w, r[|r| - 1])
  {
    if |s| > 0 && IsBlank(w, s[|s| - 1]) then TrimEnd(w, s[..|s| - 1]) else s
  }

  /** Everything `rstrip()` drops is whitespace. */
  lemma {:induction false} TrimEndDrops(w: Blanks, s: string)
    ensures AllSpace(w, s[|TrimEnd(w, s)|..])
    decreases |s|
  {
    if |s| > 0 && IsBlank(w, s[|s| - 1]) {
      var n := |TrimEnd(w, s)|;
      TrimEndDrops(w, s[..|s| - 1]);
      assert s[n..] == s[..|s| - 1][n..] + [s[|s| - 1]];
    }
  }

  /** `s.strip()`: `s` with leading and trailing whitespace removed. */
  function Trim(w: Blanks, s: string): (r: string)
    ensures Stripped(w, r)
    ensures |r| <= |s|
  {
    TrimEnd(w, TrimStart(w, s))
  }

  /** A string that is already stripped is its own `strip()`. */
  lemma {:induction false} TrimStripped(w: Blanks, s: string)
    requires Stripped(w, s)
    ensures Trim(w, s) == s
  {
    if |s| > 0 {
      assert !IsBlank(w, s[0]);
      assert TrimStart(w, s) == s;
      assert !IsBlank(w, s[|s| - 1]);
      assert TrimEnd(w, s) == s;
    }
  }

  /** `strip()` is idempotent. */
  lemma TrimIdempotent(w: Blanks, s: string)
    ensures Trim(w, Trim(w, s)) == Trim(w, s)
  {
    TrimStripped(w, Trim(w, s));
  }

  /** `strip()` is characterised independently of its definition: whenever
      `s` is a stripped core `m` between two runs of whitespace, `strip()`
      returns exactly `m`. */
  lemma {:induction false} TrimUnique(w: Blanks, a: string, m: string, b: string)
    requires AllSpace(w, a) && AllSpace(w, b) && Stripped(w, m)
    ensures Trim(w, a + m + b) == m
  {
    assert a + m + b == a + (m + b);
    TrimStartSkips(w, a, m + b);
    if |m| == 0 {
      assert m + b == b;
      TrimStartAllSpace(w, b);
      assert TrimEnd(w, []) == [];
    } else {
      TrimStartKeeps(w, m + b);
      TrimEndSkips(w, m, b);
    }
  }

  lemma {:induction false} TrimStartKeeps(w: Blanks, s: string)
    requires |s| > 0 && !IsBlank(w, s[0])
    ensures TrimStart(w, s) == s
  {
  }

  lemma {:induction false} TrimStartSkips(w: Blanks, a: string, rest: string)
    requires AllSpace(w, a)
    ensures TrimStart(w, a + rest) == TrimStart(w, rest)
    decreases |a|
  {
    if |a| > 0 {
      assert (a + rest)[0] == a[0] && IsBlank(w, a[0]);
      assert (a + rest)[1..] == a[1..] + rest;
      assert TrimStart(w, a + rest) == TrimStart(w, a[1..] + rest);
      TrimStartSkips(w, a[1..], rest);
    } else {
      assert a + rest == rest;
    }
  }

  lemma {:induction false} TrimStartAllSpace(w: Blanks, s: string)
    requires AllSpace(w, s)
    ensures TrimStart(w, s) == []
    decreases |s|
  {
    if |s| > 0 {
      TrimStartAllSpace(w, s[1..]);
    }
  }

  lemma {:induction false} TrimEndSkips(w: Blanks, m: string, b: string)
    requires AllSpace(w, b) && |m| > 0 && !IsBlank(w, m[|m| - 1])
    ensures TrimEnd(w, m + b) == m
    decreases |b|
  {
    if |b| > 0 {
      assert (m + b)[..|m + b| - 1] == m + b[..|b| - 1];
      TrimEndSkips(w, m, b[..|b| - 1]);
    } else {
      assert m + b == m;
    }
  }
}

=== FILE: wrappers.dfy ===
/** Python's two ways of saying "no value" in this program. A field that may
    hold `None` (the barcode, the backend's error) is an `Option`. A step that
    may raise (`row[column]`, `int(text)`) returns a `Result`, and `:-` stops
    at the first `Failure` just as the first exception leaves the `try`. */
module Wrappers {

  datatype Option<+T> = None | Some(value: T) {

    /** The wrapped value, or `default` for `None`. */
    function GetOr(default: T): T {
      match this
      case Some(v) => v
      case None => default
    }
  }

  datatype Result<+R, +E> = Success(value: R) | Failure(error: E) {

    // The three members below let `:-` propagate a `Failure`.
    predicate IsFailure() {
      Failure?
    }

    function PropagateFailure<U>(): Result<U, E>
      requires Failure?
    {
      Failure(error)
    }

    function Extract(): R
      requires Success?
    {
      value
    }
  }
}
